=== FILE: README.md ===
# AmbPublisher zip barrier, modelled in Dafny

This project models the N-ary "zip" operator of reactor-core's
`AmbPublisher` as a sequential state machine. The model covers the operator's
`subscribe` and the `AmbBarrier` subscription it hands downstream. It also
covers the two per-source states: `ScalarState`, for a `Supplier` source whose
value is already available, and `BufferSubscriber`, for any other publisher.

Every operation runs to completion before the next one starts. So the atomic
fields `error`, `requested`, `running` and `subscription` are plain fields,
and each operation is a pure function from one `Barrier` value to the next.
The barrier carries two append-only traces:

- `trace`: the signals sent to the downstream subscriber (`onSubscribe`,
  `onComplete`, `onError`);
- `upstream`: the calls made towards sources (`subscribe`, `request`, `cancel`).

The downstream `onNext` call is commented out in the source. Tuples are
therefore assembled but never delivered. The model records each assembled
tuple in the `assembled` field rather than in the trace.

Files:

- `signals.dfy`: signals, upstream calls, exceptions, `Long.MAX_VALUE`.
- `zip_state.dfy`: `ScalarState` and `BufferSubscriber`, with lemmas over any
  sequence of calls on them.
- `barrier.dfy`: `AmbBarrier`, covering `start`, `request`, `cancel`,
  `reportError`, `isStarted`/`isTerminated`, `drain`, the drain loop,
  `cancelStates` and `checkImmediateTerminate`.
- `publisher.dfy`: `AmbPublisher.subscribe` and the `BufferSubscriber`
  callbacks.
- `properties.dfy`: properties that relate several calls.

What the code does, and the model follows:

- A barrier with a source held by a `BufferSubscriber` never assembles a
  tuple or signals `onComplete`, even after every upstream completes
  (`AsyncNeverCompletes`). `readNext`, `isTerminated` and `requestMore` are
  stubs, so a subscriber never yields a value and never looks terminated.
  `onNext` buffers nothing and only drains. An upstream `onError` is still
  forwarded downstream at once.
- A complete tuple can only be assembled when every source is an unread
  scalar. The first `requestMore()` then exhausts source 0, so the pass signals
  `onComplete` and returns early. This has three consequences:
  - a pass assembles at most one tuple;
  - the loop back that allocates a fresh slot array is unreachable;
  - the subtraction from `requested`, guarded by a positive tuple count
    (`AmbPublisher.java:310`), is never reached.
- Every early return from the drain loop skips the decrement of `running`.
  The first `cancel()` bumps `running` and never decrements it. So after any
  terminal path `running` stays positive, and no later `drain()` enters the
  loop (`Dormant`, `DormantForever`).
- `reportError` signals `onError` at once without draining. The next drain
  pass finds the latched error and signals it again (`ErrorSignalledTwice`).
  The downstream can therefore see two `onError` signals, although rule 1.7
  of the Reactive Streams specification allows at most one terminal signal.
  The model follows the code.
- `reportError` does not check `cancelled` (`AmbPublisher.java:176-179`). An
  upstream `onError` that arrives after the downstream cancelled is still
  forwarded (`ErrorAfterCancel`), although rule 1.8 of the Reactive Streams
  specification says signalling must eventually stop after cancellation.
  The model follows the code.
- `request(n)` does not reject `n <= 0`, although rule 3.9 of the Reactive
  Streams specification requires an `onError` for it. The model follows the
  code.
- `BufferSubscriber.outstanding` is never assigned. `onSubscribe` therefore
  requests 0 elements from the upstream subscription it stores.
- The class Javadoc (`AmbPublisher.java:38-42`) describes a zip that combines
  values, but the `onNext` that would forward a tuple is commented out. The
  downstream only ever receives `onSubscribe`, `onComplete` and `onError`; the
  model records each assembled tuple separately (`assembled`).

## Model

| member | source | states |
|---|---|---|
| ZipStates.Build | reactor-core/src/main/java/reactor/core/publisher/AmbPublisher.java:140-150 | a `Supplier` source becomes an unread `ScalarState` holding its value; any other source becomes a `BufferSubscriber` with no subscription, not done, and `outstanding` 0 |
| ZipStates.Cancel | reactor-core/src/main/java/reactor/core/publisher/AmbPublisher.java:535-544 | after `cancel()` a scalar is the same scalar marked read, and a subscriber is the same subscriber holding the no-op sentinel (done flag and `outstanding` kept); an upstream subscription is cancelled exactly when the subscriber held a real one, and it is that one |
| ZipStates.OnSubscribe | reactor-core/src/main/java/reactor/core/publisher/AmbPublisher.java:496-509 | an offered subscription is stored and requested for `outstanding` if and only if the parent is not cancelled and the slot is still empty; otherwise that same subscription is cancelled and the state is unchanged |
| ZipStates.MarkDone | reactor-core/src/main/java/reactor/core/publisher/AmbPublisher.java:530-531 | `onComplete` sets `done` and keeps the stored subscription and `outstanding` |
| ZipStates.ReadNext | reactor-core/src/main/java/reactor/core/publisher/AmbPublisher.java:371-374 | an unread scalar yields its value and only it yields anything; a read scalar yields nothing, and so does the stubbed `BufferSubscriber.readNext` (`:460-463`) |
| ZipStates.StateTerminated | reactor-core/src/main/java/reactor/core/publisher/AmbPublisher.java:376-379 | a scalar is terminated exactly once read; the stubbed `BufferSubscriber.isTerminated` (`:465-468`) never is; a terminated state yields nothing |
| ZipStates.RequestMore | reactor-core/src/main/java/reactor/core/publisher/AmbPublisher.java:396-399 | afterwards the state yields nothing; a scalar becomes read (and terminated), the stubbed `BufferSubscriber.requestMore` (`:470-473`) changes nothing |
| ZipStates.Pending | reactor-core/src/main/java/reactor/core/publisher/AmbPublisher.java:406-409 | at most one element is pending, and one is exactly when `readNext()` would yield a value (an unread scalar); the stubbed `BufferSubscriber.pending` (`:480-483`) is 0 |
| ZipStates.ScalarLifecycle | reactor-core/src/main/java/reactor/core/publisher/AmbPublisher.java:361-409 | over any sequence of `requestMore`/`cancel` calls, a scalar yields its value only while no call was made and `null` afterwards; `isTerminated` is the `read` flag; `pending` goes from 1 to 0 |
| ZipStates.ScalarStaysRead | reactor-core/src/main/java/reactor/core/publisher/AmbPublisher.java:396-404 | once read, any further `requestMore`/`cancel` calls leave a scalar unchanged (both are idempotent) |
| ZipStates.SubscriberFirstWins | reactor-core/src/main/java/reactor/core/publisher/AmbPublisher.java:496-544 | over any interleaving of offered subscriptions and `cancel()` calls: at most one subscription is stored, and none once the slot is occupied; each offer gets exactly one answer (request or cancel) on that same subscription; `cancel()` cancels upstream at most once in total |
| ZipStates.SubscriberNoCancelAfterSentinel | reactor-core/src/main/java/reactor/core/publisher/AmbPublisher.java:535-544 | once the no-op sentinel is in the slot, no later call stores a subscription or makes `cancel()` cancel anything upstream |
| Barriers.New | reactor-core/src/main/java/reactor/core/publisher/AmbPublisher.java:97-126 | a new barrier has no states, no slot array, zero demand and work, no error, is not cancelled, and has sent nothing |
| Barriers.IsTerminated | reactor-core/src/main/java/reactor/core/publisher/AmbPublisher.java:208-211 | terminated exactly when the slot array is the terminal sentinel: neither unallocated (before `start()`) nor a live slot array |
| Barriers.IsStarted | reactor-core/src/main/java/reactor/core/publisher/AmbPublisher.java:203-211 | `isStarted()` is exactly the negation of `isTerminated()` (both compare the slot array with the terminated sentinel) |
| Barriers.EmptySlots | reactor-core/src/main/java/reactor/core/publisher/AmbPublisher.java:135 | a fresh slot array has one empty slot per source |
| Barriers.CancelledStates | reactor-core/src/main/java/reactor/core/publisher/AmbPublisher.java:323-325 | every state is replaced by its cancelled form, index by index |
| Barriers.CancelStates | reactor-core/src/main/java/reactor/core/publisher/AmbPublisher.java:321-326 | the slot array becomes the terminated sentinel; each state is replaced by its `cancel()` result in index order, and the upstream calls made are exactly those cancellations (`CancelCallsOf`); no other field changes |
| Barriers.Complete | reactor-core/src/main/java/reactor/core/publisher/AmbPublisher.java:257-258 | the completion path appends exactly `onComplete`, terminates and cancels every state through `cancelStates()` (the same states and upstream cancellations), and leaves demand, work counter, error and flag alone |
| Barriers.CheckImmediateTerminate | reactor-core/src/main/java/reactor/core/publisher/AmbPublisher.java:328-344 | stops if and only if cancelled or an error is latched; on stopping every state is cancelled and the barrier terminated; cancelled: no signal; error: append `onError(error)`; otherwise nothing changes; only the slot array, the states, the upstream calls and the signals can change, and the number of states is kept; on stopping the states and upstream calls are exactly those of `cancelStates()` |
| Barriers.CancelBarrier | reactor-core/src/main/java/reactor/core/publisher/AmbPublisher.java:165-173 | `cancelled` is set afterwards; a repeated call changes nothing; the first call bumps `running` and signals nothing; when `running` was 0 the result is exactly `cancelStates()` on the flagged barrier, so nothing else (error, tuples, earlier upstream calls) changes |
| Barriers.ReportError | reactor-core/src/main/java/reactor/core/publisher/AmbPublisher.java:175-180 | with no error latched, latch the error and append `onError(t)`; otherwise throw a fatal error and change nothing |
| Barriers.AddCap | reactor-core/src/main/java/reactor/core/publisher/AmbPublisher.java:161 | demand addition: the result is the sum or `Long.MAX_VALUE`; it never exceeds `Long.MAX_VALUE` for non-negative `n`; below `Long.MAX_VALUE` it is exactly the sum, and `Long.MAX_VALUE` is sticky |
| Barriers.Request | reactor-core/src/main/java/reactor/core/publisher/AmbPublisher.java:159-163 | the barrier stays well-formed; its effect is stated by `Properties.RequestWhileWaiting` and `Properties.RequestAdditive` |
| Barriers.SubscribeCalls | reactor-core/src/main/java/reactor/core/publisher/AmbPublisher.java:152-154 | every asynchronous source is subscribed to, no scalar source is, and the calls go in strictly increasing index order (so each source once) |
| Barriers.BuildStates | reactor-core/src/main/java/reactor/core/publisher/AmbPublisher.java:134-150 | one state per source, built by `Build` at the same index |
| Barriers.Start | reactor-core/src/main/java/reactor/core/publisher/AmbPublisher.java:129-157 | after cancellation `start()` changes nothing; otherwise it leaves a well-formed started barrier |
| Barriers.Drain | reactor-core/src/main/java/reactor/core/publisher/AmbPublisher.java:218-226 | with `running` non-zero, only `running` is bumped; any signal or assembled tuple from a drain leaves the barrier terminated; a drain never changes the demand, the latched error, the `cancelled` flag or the sources |
| Barriers.DrainLoop | reactor-core/src/main/java/reactor/core/publisher/AmbPublisher.java:229-318 | one pass keeps the barrier well-formed; its effect is stated by `TuplePass` and the lemmas in `Properties` |
| Barriers.ScanStates | reactor-core/src/main/java/reactor/core/publisher/AmbPublisher.java:250-269 | the read loop stops at the first exhausted source in index order, if there is one; the tuple is complete if and only if every source yielded a value; a slot is written with the source's value exactly when demand is non-zero and the source yielded one, before the stop |
| Barriers.Consume | reactor-core/src/main/java/reactor/core/publisher/AmbPublisher.java:287-301 | when `requestMore()` exhausts the source at the current index, the consume loop completes the downstream there, with only that state consumed before cancellation |
| Barriers.TuplePass | reactor-core/src/main/java/reactor/core/publisher/AmbPublisher.java:244-317 | a pass assembles at most one tuple: exactly when demand is non-zero, the barrier is not terminated, and every source yields a value. That tuple is the sources' values in index order. The local demand drops by the tuple count unless it is `Long.MAX_VALUE`. It ends terminated exactly when it assembled a tuple or met an exhausted source; then it has appended `onComplete`, replaced every state by its `cancel()` result and made exactly the upstream cancellations of `cancelStates()`, and left `requested` alone with `running` at 1. On a normal exit it consumed and signalled nothing and `running` is back to 0 |
| Publisher.Subscribe | reactor-core/src/main/java/reactor/core/publisher/AmbPublisher.java:53-72 | a null subscriber throws and nothing else happens; null or empty sources give exactly `[onSubscribe(NOOP), onComplete]`; otherwise the subscriber has seen only `onSubscribe(barrier)`, with one unread state per source, nothing requested, nothing cancelled, and each asynchronous source subscribed to in order |
| Publisher.StartIsQuiet | reactor-core/src/main/java/reactor/core/publisher/AmbPublisher.java:129-157 | the drain inside `start()` signals, consumes and assembles nothing, and releases `running` |
| Publisher.SubscriberOnSubscribe | reactor-core/src/main/java/reactor/core/publisher/AmbPublisher.java:496-509 | at the barrier: the subscription is stored and requested exactly when the barrier is not cancelled and the slot is empty; otherwise it is cancelled and no state changes |
| Publisher.SubscriberOnNext | reactor-core/src/main/java/reactor/core/publisher/AmbPublisher.java:511-521 | `onNext` only drains: it never changes the demand, the latched error, the `cancelled` flag or the sources; with a drain counted as running, it just bumps `running`; any signal or tuple it causes ends in termination |
| Publisher.SubscriberOnError | reactor-core/src/main/java/reactor/core/publisher/AmbPublisher.java:523-527 | `onError` reports to the barrier: with no error latched it latches `t` and appends `onError(t)`, otherwise it throws and changes nothing |
| Publisher.SubscriberOnComplete | reactor-core/src/main/java/reactor/core/publisher/AmbPublisher.java:529-533 | `onComplete` always leaves the subscriber marked done, then drains; with a drain counted as running, nothing is signalled |
| Properties.DrainWithoutTuple | reactor-core/src/main/java/reactor/core/publisher/AmbPublisher.java:246-317 | with zero demand or some source without a value, a drain assembles no tuple and leaves `requested` unchanged; with no exhausted source it also consumes and signals nothing and `running` returns to 0 |
| Properties.UnboundedDemandNotDecremented | reactor-core/src/main/java/reactor/core/publisher/AmbPublisher.java:271-277 | a local demand of `Long.MAX_VALUE` is never decremented |
| Properties.ScalarsZipOnce | reactor-core/src/main/java/reactor/core/publisher/AmbPublisher.java:246-303 | with every source an unread scalar and positive demand, one drain assembles the values in index order and appends exactly one `onComplete`. Every scalar is left read and `isTerminated()` holds while `isStarted()` does not. `requested` is unchanged, `running` stays 1, and nothing is called upstream |
| Barriers.NoScalarCancelCalls | reactor-core/src/main/java/reactor/core/publisher/AmbPublisher.java:401-404 | cancelling scalars calls nothing upstream |
| Properties.DrainEndsTerminatedOrReleased | reactor-core/src/main/java/reactor/core/publisher/AmbPublisher.java:229-318 | after a drain from an idle barrier, it is terminated exactly when `running` is left positive, and then it is dormant |
| Properties.CancelIdempotent | reactor-core/src/main/java/reactor/core/publisher/AmbPublisher.java:166-173 | a second `cancel()` changes nothing |
| Properties.StartAfterCancel | reactor-core/src/main/java/reactor/core/publisher/AmbPublisher.java:129-132 | `start()` after `cancel()` allocates and subscribes nothing |
| Properties.CancelCallsAreStored | reactor-core/src/main/java/reactor/core/publisher/AmbPublisher.java:321-326 | `cancelStates()` cancels an upstream subscription exactly when some subscriber holds it (both directions) |
| Properties.SecondCancelStatesIsSilent | reactor-core/src/main/java/reactor/core/publisher/AmbPublisher.java:535-544 | cancelling already-cancelled states cancels nothing upstream and changes no state |
| Properties.ReportErrorTwice | reactor-core/src/main/java/reactor/core/publisher/AmbPublisher.java:175-180 | the first report latches and signals; the second throws a fatal error, keeps the first error latched, and signals nothing |
| Properties.ErrorSignalledTwice | reactor-core/src/main/java/reactor/core/publisher/AmbPublisher.java:333-342 | `reportError` followed by a drain signals `onError` twice and leaves the barrier dormant |
| Properties.ErrorAfterCancel | reactor-core/src/main/java/reactor/core/publisher/AmbPublisher.java:176-179 | on an idle barrier, `cancel()` signals nothing and leaves it dormant, yet a later upstream `onError` is still forwarded downstream, since `reportError` does not look at `cancelled` |
| Properties.RequestWhileWaiting | reactor-core/src/main/java/reactor/core/publisher/AmbPublisher.java:159-163 | while some source has no value, `request(n)` with `n >= 0` only adds `n` (saturating) to the demand and copies available scalar values into their slots |
| Properties.RequestAdditive | reactor-core/src/main/java/reactor/core/publisher/AmbPublisher.java:159-163 | on a waiting barrier (some source without a value, none exhausted), `request(k)` then `request(m)` with `k, m >= 0` leaves the same barrier as one `request(k + m)` |
| Properties.RequestAdditiveScalars | reactor-core/src/main/java/reactor/core/publisher/AmbPublisher.java:159-163 | with every source an unread scalar, `request(k)` then `request(m)` with `k, m >= 0` signals and assembles exactly what one `request(k + m)` does; the barriers differ only in `running`, raised by one when the first call already terminated the barrier |
| Properties.CancelMakesDormant | reactor-core/src/main/java/reactor/core/publisher/AmbPublisher.java:166-173 | the first `cancel()` with no drain running leaves the barrier terminated, every state cancelled, and `running` positive |
| Properties.DormantStep | reactor-core/src/main/java/reactor/core/publisher/AmbPublisher.java:218-226 | any one call on a dormant barrier keeps it dormant. It appends at most one `onError`, and only when no error was latched. It never clears `cancelled` or the latched error and assembles nothing |
| Properties.DormantForever | reactor-core/src/main/java/reactor/core/publisher/AmbPublisher.java:218-226 | over any sequence of calls after a terminal path, no further `onComplete` is sent. At most one further `onError` is sent, and none if an error was latched. Nothing is assembled and the barrier stays dormant |
| Properties.ScalarSourcesScenario | reactor-core/src/main/java/reactor/core/publisher/AmbPublisher.java:53-72 | subscribing to scalars and requesting any positive amount gives exactly `[onSubscribe(barrier), onComplete]` and one tuple of the values in order, and no later calls add another `onComplete` |
| Properties.AsyncSourceScenario | reactor-core/src/main/java/reactor/core/publisher/AmbPublisher.java:460-473 | with any asynchronous source, subscribing then requesting any `n` leaves the subscriber having seen only `onSubscribe(barrier)`, with nothing assembled and the demand recorded |
| Properties.IdleDrain | reactor-core/src/main/java/reactor/core/publisher/AmbPublisher.java:218-317 | a drain of a started barrier waiting on a subscriber assembles nothing and never signals `onComplete`: it returns to idle silently, or signals the latched error and goes dormant |
| Properties.IdleStep | reactor-core/src/main/java/reactor/core/publisher/AmbPublisher.java:159-173 | any one call (request, cancel, or an upstream `onSubscribe`/`onNext`/`onComplete`/`onError`) on a barrier waiting on a subscriber leaves it idle or dormant, assembles nothing and never signals `onComplete` |
| Properties.AsyncNeverCompletes | reactor-core/src/main/java/reactor/core/publisher/AmbPublisher.java:496-533 | over any sequence of calls, a barrier waiting on a subscriber never assembles a tuple and never signals `onComplete`, even after every upstream completes; only `onError` can still be forwarded |
| Properties.AsyncSourcesNeverComplete | reactor-core/src/main/java/reactor/core/publisher/AmbPublisher.java:53-72 | with any asynchronous source, no sequence of calls after `subscribe` ever assembles a tuple or signals `onComplete` |

## Left out

- Threads and atomics: operations are sequential, so compare-and-set and
  get-and-add are plain reads and writes. Re-entrant calls from the subscriber
  during `onComplete`/`onError`, and lock-freedom, are not modelled.
- The drain loop's outer `for(;;)` runs once. In a sequential run nothing bumps
  `running` during a pass, so `missed` becomes 0 after the first pass.
- `BackpressureUtils.getAndAdd` and `getAndSub` are not part of this model.
  The add is assumed to saturate at `Long.MAX_VALUE` and stay there. `request`
  does not check `n` (`AmbPublisher.java:161`), so `AddCap` with a negative `n`
  is plain addition and `requested` can go negative; what the real helper
  does with a negative `n` is not modelled. The subtraction is never reached,
  so it is not modelled.
- `Exceptions.throwIfFatal`, `SpecificationExceptions`,
  `ReactorFatalException` and the `BaseSubscriber` super calls are not part of
  this model. A thrown exception is an `Exception` value with the barrier left
  unchanged. The `catch` blocks in `subscribe`, the drain loop and
  `BufferSubscriber.onNext` are not modelled: nothing inside them throws once
  re-entrant upstream callbacks and null sources are left out (see
  `Publisher.Subscribe` below).
- Publisher.Subscribe: does not model two traces the code allows, because an
  upstream's `subscribe(this)` is assumed to do nothing at once and every
  element of the source array is assumed non-null. (1) An upstream that calls
  `onError` synchronously inside `subscribeTo` (`AmbPublisher.java:153`,
  `:492`, `:526`, `:179`) makes the downstream see `onError`, then `onError`
  again from the drain in `start()` (`:156`, `:336`), and only then
  `onSubscribe(barrier)` (`:66`). (2) A null element of the source array makes
  `subscribeTo(null)` throw (`:141-153`, `:492`); the `catch` at `:68-70`
  then sends `onError` with no `onSubscribe` before it.
- `Supplier.get()`: a scalar source is an already-available non-null value.
- An upstream's `subscribe(this)` does nothing at once. The upstream's later
  `onSubscribe`/`onNext`/`onError`/`onComplete` are separate calls
  (`Properties.Event`).
- `cancel`, `request` and `drain` on a barrier whose `start()` has not run are
  left out. The subscriber only receives the barrier after `start()`. The
  source would dereference the still-null states there.
- `running` is an unbounded integer: 32-bit wrap-around after 2^31 drains is
  not modelled.
- `upstreams`, `upstreamsCount`, `getError`, `isCancelled`,
  `requestedFromDownstream`, `getCapacity`, `upstream`, `downstream` and
  `toString` are introspection only.
- reactor-spring/src/main/java/reactor/spring/context/ReactorFactoryBean.java
  and reactor-core/src/main/java/reactor/Processors.java are not part of this
  model. They are wiring with no logic of the zip.
- Barriers.Request: its contract states only well-formedness; its effect is
  stated on waiting barriers by `Properties.RequestWhileWaiting` and
  `Properties.RequestAdditive`, and on scalar sources by
  `Properties.ScalarsZipOnce`.
- Barriers.DrainLoop: its contract states only well-formedness; the pass is
  characterised by `Barriers.TuplePass` and `Barriers.CheckImmediateTerminate`.
- Barriers.Start: the non-cancelled case states only well-formedness; the
  full effect from a fresh barrier is `Publisher.StartIsQuiet`.

=== FILE: barrier.dfy ===
/** The `AmbBarrier`: the subscription handed to the downstream subscriber,
    owning one state per source, the slot array `valueCache`, the demand
    counter `requested`, the work counter `running`, the latched `error` and
    the `cancelled` flag. Every operation is a pure function from barrier to
    barrier; the signals sent downstream and the calls made upstream are
    appended to two traces carried in the barrier. Operations run one at a
    time to completion, so the atomics are plain fields here. */
module Barriers {
  import opened Signals
  import opened ZipStates

  /** `valueCache`: `null` before `start()`, an ordinary slot array (a `null`
      slot is `None`), or the shared `TERMINATED_CACHE` sentinel. */
  datatype Cache = Unallocated | Slots(slots: seq<Option<Value>>) | TerminatedCache

  datatype Barrier = Barrier(
    sources: seq<Source>,
    states: seq<ZipState>,
    cache: Cache,
    requested: int,
    running: int,
    error: Option<Failure>,
    cancelled: bool,
    trace: seq<Signal>,                       // signals sent downstream, in order
    upstream: seq<UpstreamCall>,              // calls made on upstream sources, in order
    assembled: seq<seq<Option<Value>>>)       // tuples assembled for the disabled `onNext`

  /** The barrier as the constructor leaves it, before `start()`. */
  function New(sources: seq<Source>): (b: Barrier)
    ensures b.sources == sources && b.states == [] && b.cache == Unallocated
    ensures b.requested == 0 && b.running == 0 && b.error == None && !b.cancelled
    ensures b.trace == [] && b.upstream == [] && b.assembled == []
  {
    Barrier(sources, [], Unallocated, 0, 0, None, false, [], [], [])
  }

  /** A started barrier: one state per source (there is at least one source,
      the operator never builds a barrier otherwise), and a slot array of the
      same width unless it is the terminated sentinel. */
  predicate Wf(b: Barrier)
  {
    && |b.sources| >= 1
    && |b.states| == |b.sources|
    && b.running >= 0
    && !b.cache.Unallocated?
    && (b.cache.Slots? ==> |b.cache.slots| == |b.states|)
  }

  /** `isTerminated()`: the value cache holds the terminal sentinel, which
      happens only once the states were cancelled; before `start()` and while
      live slots are held the barrier is not terminated. */
  function IsTerminated(b: Barrier): (r: bool)
    ensures r <==> !b.cache.Unallocated? && !b.cache.Slots?
  {
    b.cache == TerminatedCache
  }

  /** `isStarted()` compares with the same sentinel, so it is the exact
      complement of `isTerminated()`; it holds even before `start()`. */
  function IsStarted(b: Barrier): (r: bool)
    ensures r <==> !IsTerminated(b)
  {
    b.cache != TerminatedCache
  }

  function EmptySlots(n: nat): (s: seq<Option<Value>>)
    ensures |s| == n && forall j :: 0 <= j < n ==> s[j] == None
  {
    seq(n, _ => None)
  }

  // ---------------------------------------------------------------------------
  // Cancelling every state

  /** The upstream cancellations made by cancelling each state in index order. */
  function CancelCallsOf(states: seq<ZipState>): seq<UpstreamCall>
  {
    if states == [] then [] else CancelCalls(Cancel(states[0])) + CancelCallsOf(states[1..])
  }

  /** Cancelling scalars calls nothing upstream. */
  lemma {:induction false} NoScalarCancelCalls(states: seq<ZipState>)
    requires forall j :: 0 <= j < |states| ==> states[j].ScalarState?
    ensures CancelCallsOf(states) == []
  {
    if states != [] {
      NoScalarCancelCalls(states[1..]);
    }
  }

  function CancelledStates(states: seq<ZipState>): (r: seq<ZipState>)
    ensures |r| == |states|
    ensures forall j :: 0 <= j < |states| ==> r[j] == Cancel(states[j]).state
  {
    seq(|states|, j requires 0 <= j < |states| => Cancel(states[j]).state)
  }

  /** `cancelStates()`: the slot array becomes the terminated sentinel and
      every state is cancelled, in index order. */
  function CancelStates(b: Barrier): (r: Barrier)
    ensures IsTerminated(r)
    ensures |r.states| == |b.states| && forall j :: 0 <= j < |r.states| ==> CancelledForm(r.states[j])
    ensures r == b.(cache := TerminatedCache, states := r.states, upstream := r.upstream)
    ensures r.states == CancelledStates(b.states) && r.upstream == b.upstream + CancelCallsOf(b.states)
    ensures Wf(b) ==> Wf(r)
  {
    b.(cache := TerminatedCache,
       states := CancelledStates(b.states),
       upstream := b.upstream + CancelCallsOf(b.states))
  }

  /** The completion path of the drain loop: `onComplete` then `cancelStates()`. */
  function Complete(b: Barrier): (r: Barrier)
    ensures r.trace == b.trace + [OnComplete]
    ensures IsTerminated(r) && forall j :: 0 <= j < |r.states| ==> CancelledForm(r.states[j])
    ensures Wf(b) ==> Wf(r)
    ensures r.requested == b.requested && r.running == b.running && r.assembled == b.assembled
    ensures r.cancelled == b.cancelled && r.error == b.error && r.sources == b.sources
    ensures r.states == CancelledStates(b.states) && r.upstream == b.upstream + CancelCallsOf(b.states)
  {
    CancelStates(b.(trace := b.trace + [OnComplete]))
  }

  /** `checkImmediateTerminate()`: a cancelled barrier cancels its states; a
      latched error is signalled (again, if `reportError` already did) and
      the states are cancelled. */
  function CheckImmediateTerminate(b: Barrier): (r: (bool, Barrier))
    ensures r.0 <==> b.cancelled || b.error.Some?
    ensures !r.0 ==> r.1 == b
    ensures r.0 ==> IsTerminated(r.1) && r.1.running == b.running && r.1.requested == b.requested
    ensures b.cancelled ==> r.1.trace == b.trace
    ensures !b.cancelled && b.error.Some? ==> r.1.trace == b.trace + [OnError(b.error.value)]
    ensures Wf(b) ==> Wf(r.1)
    ensures |r.1.states| == |b.states|
    ensures r.0 ==> forall j :: 0 <= j < |r.1.states| ==> CancelledForm(r.1.states[j])
    ensures r.0 ==> r.1.states == CancelledStates(b.states) && r.1.upstream == b.upstream + CancelCallsOf(b.states)
    ensures r.1 == b.(cache := r.1.cache, states := r.1.states, upstream := r.1.upstream, trace := r.1.trace)
  {
    if b.cancelled then (true, CancelStates(b))
    else if b.error.Some? then (true, CancelStates(b.(trace := b.trace + [OnError(b.error.value)])))
    else (false, b)
  }

  // ---------------------------------------------------------------------------
  // Downstream-facing operations: cancel, request, and the upstream error report

  /** `cancel()`. Only the first call flips `cancelled` and bumps `running`;
      when no drain was running it cancels the states itself. `running` is
      never decremented afterwards. */
  function CancelBarrier(b: Barrier): (r: Barrier)
    ensures r.cancelled
    ensures b.cancelled ==> r == b
    ensures !b.cancelled ==> r.running == b.running + 1 && r.trace == b.trace && r.requested == b.requested
    ensures !b.cancelled && b.running == 0 ==>
              IsTerminated(r) && forall j :: 0 <= j < |r.states| ==> CancelledForm(r.states[j])
    ensures !b.cancelled && b.running != 0 ==> r == b.(cancelled := true, running := b.running + 1)
    ensures !b.cancelled && b.running == 0 ==> r == CancelStates(b.(cancelled := true, running := 1))
    ensures Wf(b) ==> Wf(r)
  {
    if b.cancelled then b
    else
      var b1 := b.(cancelled := true, running := b.running + 1);
      if b.running == 0 then CancelStates(b1) else b1
  }

  /** The result of an operation that may throw: the barrier afterwards, and
      the exception raised, if any. */
  datatype Outcome = Outcome(barrier: Barrier, thrown: Option<Exception>)

  /** `reportError(t)`: the first report latches `t` and signals `onError(t)`
      at once, without draining; any later report throws a fatal exception
      and changes nothing. */
  function ReportError(b: Barrier, t: Failure): (o: Outcome)
    ensures o.thrown.None? <==> b.error.None?
    ensures o.thrown.None? ==> o.barrier == b.(error := Some(t), trace := b.trace + [OnError(t)])
    ensures o.thrown.Some? ==> o.thrown.value == FatalError(t) && o.barrier == b
  {
    if b.error.Some? then Outcome(b, Some(FatalError(t)))
    else Outcome(b.(error := Some(t), trace := b.trace + [OnError(t)]), None)
  }

  /** The demand addition, saturating at `Long.MAX_VALUE` and sticky there.
      The helper that implements it is not part of this model; this is the
      behaviour assumed of it. */
  function AddCap(r: int, n: int): (s: int)
    ensures r <= LongMax && n >= 0 ==> r <= s <= LongMax
    ensures r == LongMax ==> s == LongMax
    ensures s == LongMax || s == r + n
    ensures r != LongMax && r + n < LongMax ==> s == r + n
  {
    if r == LongMax || r + n >= LongMax then LongMax else r + n
  }

  /** `request(n)`: add to the demand, then drain. `n` is not checked. */
  function Request(b: Barrier, n: int): (r: Barrier)
    requires Wf(b)
    ensures Wf(r)
  {
    Drain(b.(requested := AddCap(b.requested, n)))
  }

  // ---------------------------------------------------------------------------
  // start()

  /** `subscribeTo` for every source in index order: a scalar ignores it, a
      subscriber subscribes to its publisher. */
  function SubscribeCalls(sources: seq<Source>, from: nat): (calls: seq<UpstreamCall>)
    requires from <= |sources|
    ensures forall k :: 0 <= k < |calls| ==>
              calls[k].SubscribeTo? && from <= calls[k].source < |sources| && sources[calls[k].source].AsyncSource?
    ensures forall j :: from <= j < |sources| && sources[j].AsyncSource? ==> SubscribeTo(j) in calls
    ensures forall k, l :: 0 <= k < l < |calls| ==> calls[k].source < calls[l].source
    decreases |sources| - from
  {
    if from == |sources| then []
    else
      (if sources[from].AsyncSource? then [SubscribeTo(from)] else []) + SubscribeCalls(sources, from + 1)
  }

  function BuildStates(sources: seq<Source>): (states: seq<ZipState>)
    ensures |states| == |sources|
    ensures forall j :: 0 <= j < |sources| ==> states[j] == Build(sources[j])
  {
    seq(|sources|, j requires 0 <= j < |sources| => Build(sources[j]))
  }

  /** `start()`: nothing at all once cancelled; otherwise allocate the slot
      array, build one state per source, subscribe them, then drain. */
  function Start(b: Barrier): (r: Barrier)
    requires |b.sources| >= 1 && b.running >= 0
    ensures b.cancelled ==> r == b
    ensures !b.cancelled ==> Wf(r)
  {
    if b.cancelled then b
    else
      var b1 := b.(states := BuildStates(b.sources),
                   cache := Slots(EmptySlots(|b.sources|)),
                   upstream := b.upstream + SubscribeCalls(b.sources, 0));
      Drain(b1)
  }

  // ---------------------------------------------------------------------------
  // drain() and drainLoop()

  /** `drain()`: bump `running`; only the caller that found it at 0 runs the
      loop. */
  function Drain(b: Barrier): (r: Barrier)
    requires Wf(b)
    ensures Wf(r)
    ensures b.running != 0 ==> r == b.(running := b.running + 1)
    // whatever a drain signals or assembles, it ends terminated
    ensures r.trace == b.trace || IsTerminated(r)
    ensures r.assembled == b.assembled || IsTerminated(r)
    ensures r.requested == b.requested && r.error == b.error && r.cancelled == b.cancelled && r.sources == b.sources
  {
    if b.running == 0 then DrainLoop(b.(running := 1)) else b.(running := b.running + 1)
  }

  /** One pass of `drainLoop` with `missed == 1`. The outer loop ends after it:
      on a normal exit `running` drops from 1 to 0, since no other call can
      bump it while the pass runs; every other exit returns early and leaves
      `running` at 1. */
  function DrainLoop(b: Barrier): (r: Barrier)
    requires Wf(b) && b.running == 1
    ensures Wf(r)
  {
    var (stop, b1) := CheckImmediateTerminate(b);
    if stop then b1 else TuplePass(b1, b1.requested).barrier
  }

  /** How the first loop of a pass ended: at the first source (in index order)
      that is exhausted, or after the last source, with or without a value
      from every source. */
  datatype Scan = Ended(index: nat, slots: seq<Option<Value>>) | Scanned(slots: seq<Option<Value>>, complete: bool)

  function ScanEnd(s: Scan, n: nat): nat
  {
    if s.Ended? then s.index else n
  }

  /** The read loop over sources `i..`: a value is written to its slot only
      when the local demand is non-zero (`fill`); an exhausted source stops
      the scan; a source with no value marks the tuple incomplete. */
  function ScanStates(states: seq<ZipState>, i: nat, fill: bool, slots: seq<Option<Value>>, complete: bool): (s: Scan)
    requires i <= |states| == |slots|
    ensures |s.slots| == |states|
    ensures s.Ended? ==> i <= s.index < |states| && Exhausted(states[s.index])
    ensures forall j :: i <= j < ScanEnd(s, |states|) ==> !Exhausted(states[j])
    ensures s.Scanned? ==> (s.complete <==> complete && forall j :: i <= j < |states| ==> ReadNext(states[j]).Some?)
    ensures forall j :: 0 <= j < |states| ==>
              s.slots[j] == (if i <= j < ScanEnd(s, |states|) && fill && ReadNext(states[j]).Some?
                             then ReadNext(states[j]) else slots[j])
    decreases |states| - i
  {
    if i == |states| then Scanned(slots, complete)
    else
      match ReadNext(states[i])
      case None =>
        if StateTerminated(states[i]) then Ended(i, slots)
        else ScanStates(states, i + 1, fill, slots, false)
      case Some(v) =>
        ScanStates(states, i + 1, fill, if fill then slots[i := Some(v)] else slots, complete)
  }

  /** Every source yields a value right now. */
  predicate AllAvailable(states: seq<ZipState>)
  {
    forall j :: 0 <= j < |states| ==> ReadNext(states[j]).Some?
  }

  /** Some source has nothing left and is terminated. */
  predicate AnyExhausted(states: seq<ZipState>)
  {
    exists j :: 0 <= j < |states| && Exhausted(states[j])
  }

  /** The values the sources yield, as slots. */
  function Available(states: seq<ZipState>): (t: seq<Option<Value>>)
    ensures |t| == |states| && forall j :: 0 <= j < |states| ==> t[j] == ReadNext(states[j])
  {
    seq(|states|, j requires 0 <= j < |states| => ReadNext(states[j]))
  }

  /** The slot array after a read loop that met no exhausted source: slots
      of sources holding a value are overwritten when `fill` is set. */
  function Filled(states: seq<ZipState>, slots: seq<Option<Value>>, fill: bool): (t: seq<Option<Value>>)
    requires |slots| == |states|
    ensures |t| == |states|
  {
    seq(|states|, j requires 0 <= j < |states| =>
      if fill && ReadNext(states[j]).Some? then ReadNext(states[j]) else slots[j])
  }

  datatype Consumption = Stopped(barrier: Barrier) | Consumed(barrier: Barrier)

  /** The consume loop over sources `i..` after a tuple: `requestMore()` on
      each, completing the downstream as soon as one is exhausted. The
      re-check of `cancelled`/`error` at each step is kept, although nothing
      can change them during a pass. */
  function Consume(b: Barrier, i: nat): (c: Consumption)
    requires Wf(b) && i <= |b.states| && !b.cancelled && b.error.None?
    ensures Wf(c.barrier)
    ensures i < |b.states| && Exhausted(RequestMore(b.states[i])) ==> c == Stopped(Complete(b.(states := b.states[i := RequestMore(b.states[i])])))
    decreases |b.states| - i
  {
    if i == |b.states| then Consumed(b)
    else
      var (stop, b1) := CheckImmediateTerminate(b);
      if stop then Stopped(b1)
      else
        var s := RequestMore(b1.states[i]);
        var b2 := b1.(states := b1.states[i := s]);
        if ReadNext(s).None? && StateTerminated(s) then Stopped(Complete(b2))
        else Consume(b2, i + 1)
  }

  /** What a pass leaves behind: the barrier, the local demand `r` and the
      number of tuples assembled (`replenishMain`). */
  datatype Pass = Pass(barrier: Barrier, demand: int, tuples: nat)

  /** The tuple loop of one pass with local demand `r`. After a complete tuple
      the consume loop always stops at source 0: a complete tuple means every
      source yielded a value, so every state is an unread scalar, and
      `requestMore()` exhausts the first one. Hence the branch that would
      allocate a fresh slot array and go round again is unreachable, and the
      subtraction from `requested`, guarded by a positive tuple count on the
      normal exit, is never reached. */
  function TuplePass(b: Barrier, r: int): (p: Pass)
    requires Wf(b) && b.running == 1 && !b.cancelled && b.error.None?
    ensures Wf(p.barrier)
    ensures p.barrier.sources == b.sources && p.barrier.cancelled == b.cancelled && p.barrier.error == b.error
    // at most one tuple, and the local demand drops by one per tuple unless unbounded
    ensures p.tuples <= 1 && p.demand == (if r == LongMax then r else r - p.tuples)
    ensures p.tuples == 1 <==> !IsTerminated(b) && r != 0 && AllAvailable(b.states)
    ensures p.barrier.assembled == b.assembled + (if p.tuples == 1 then [Available(b.states)] else [])
    // a terminated slot array returns at once
    ensures IsTerminated(b) ==> p.barrier == b
    // the pass completes the downstream exactly when it assembled a tuple or met an exhausted source
    ensures IsTerminated(p.barrier) <==> IsTerminated(b) || p.tuples == 1 || AnyExhausted(b.states)
    ensures !IsTerminated(b) && IsTerminated(p.barrier) ==>
              && p.barrier.trace == b.trace + [OnComplete]
              && (forall j :: 0 <= j < |p.barrier.states| ==> CancelledForm(p.barrier.states[j]))
              && p.barrier.running == 1 && p.barrier.requested == b.requested
              && p.barrier.states == CancelledStates(b.states)
              && p.barrier.upstream == b.upstream + CancelCallsOf(b.states)
    // a normal exit consumes nothing, signals nothing and releases `running`
    ensures !IsTerminated(p.barrier) ==>
              p.barrier == b.(running := 0, cache := Slots(Filled(b.states, b.cache.slots, r != 0)))
  {
    if b.cache.TerminatedCache? then Pass(b, r, 0)
    else
      match ScanStates(b.states, 0, r != 0, b.cache.slots, true)
      case Ended(_, slots) => Pass(Complete(b.(cache := Slots(slots))), r, 0)
      case Scanned(slots, complete) =>
        var b2 := b.(cache := Slots(slots));
        if r != 0 && complete then
          assert slots == Available(b.states);
          var r2 := if r != LongMax then r - 1 else r;
          var b3 := b2.(assembled := b2.assembled + [slots]);
          var p := Pass(b3, r2, 1);
          var s1 := b.states[0 := RequestMore(b.states[0])];
          assert CancelledStates(s1) == CancelledStates(b.states);
          NoScalarCancelCalls(s1);
          NoScalarCancelCalls(b.states);
          match Consume(b3, 0)
          case Stopped(b4) => p.(barrier := b4)
          case Consumed(_) => assert false; p
        else
          Pass(b2.(running := b2.running - 1), r, 0)
  }
}

=== FILE: properties.dfy ===
/** Properties of the barrier that relate several calls: what one drain pass
    does, what cancellation and error reporting guarantee, how demand adds
    up, and what any sequence of calls can still do once the barrier has
    terminated. */
module Properties {
  import opened Signals
  import opened ZipStates
  import opened Barriers
  import opened Publisher

  // ---------------------------------------------------------------------------
  // One drain pass

  /** A barrier that is running normally: started, not terminated, nothing
      cancelled or latched, and no drain in progress. */
  predicate Live(b: Barrier)
  {
    Wf(b) && b.running == 0 && !b.cancelled && b.error.None? && !IsTerminated(b)
  }

  /** With no demand, or with some source that has no value yet (every
      subscriber), a pass assembles no tuple and leaves `requested` alone.
      If moreover no source is exhausted, it consumes nothing, signals
      nothing and releases `running` back to 0. */
  lemma DrainWithoutTuple(b: Barrier)
    requires Live(b)
    requires b.requested == 0 || !AllAvailable(b.states)
    ensures Drain(b).assembled == b.assembled
    ensures Drain(b).requested == b.requested
    ensures !AnyExhausted(b.states) ==>
              Drain(b) == b.(cache := Slots(Filled(b.states, b.cache.slots, b.requested != 0)))
  {
  }

  /** The local demand is not decremented when it is `Long.MAX_VALUE`, and
      drops by exactly the number of tuples otherwise. */
  lemma UnboundedDemandNotDecremented(b: Barrier)
    requires Live(b) && b.requested == LongMax
    ensures TuplePass(b.(running := 1), b.requested).demand == LongMax
    ensures TuplePass(b.(running := 1), b.requested).tuples == (if AllAvailable(b.states) then 1 else 0)
  {
  }

  /** Every source an unread scalar. */
  predicate AllUnreadScalars(states: seq<ZipState>)
  {
    forall j :: 0 <= j < |states| ==> states[j].ScalarState? && !states[j].read
  }

  /** With every source an unread scalar and positive demand, one drain
      assembles the tuple of the scalar values in index order, then the
      first `requestMore()` exhausts source 0: `onComplete` is signalled
      once, every state is cancelled and the slot array is the terminated
      sentinel. The subtraction from `requested` is skipped and `running`
      stays at 1. */
  lemma ScalarsZipOnce(b: Barrier)
    requires Live(b) && b.requested != 0 && AllUnreadScalars(b.states)
    ensures var d := Drain(b);
            && d.assembled == b.assembled + [seq(|b.states|, j requires 0 <= j < |b.states| => Some(b.states[j].val))]
            && d.trace == b.trace + [OnComplete]
            && CompleteCount(d.trace) == CompleteCount(b.trace) + 1
            && IsTerminated(d) && !IsStarted(d)
            && (forall j :: 0 <= j < |d.states| ==> d.states[j] == ScalarState(b.states[j].val, true))
            && d.requested == b.requested && d.running == 1 && d.upstream == b.upstream
  {
    var p := TuplePass(b.(running := 1), b.requested);
    assert Drain(b) == p.barrier;
    assert AllAvailable(b.states);
    assert Available(b.states) == seq(|b.states|, j requires 0 <= j < |b.states| => Some(b.states[j].val));
    CountsAppend(b.trace, OnComplete);
    var s1 := b.states[0 := RequestMore(b.states[0])];
    assert p.barrier.upstream == b.upstream + CancelCallsOf(s1);
    NoScalarCancelCalls(s1);
  }

  /** A pass that ends early (cancelled, error, exhausted source, or a tuple)
      leaves `running` positive; a pass that ends normally returns it to 0.
      Either way the barrier is terminated exactly when `running` is left
      positive. */
  lemma DrainEndsTerminatedOrReleased(b: Barrier)
    requires Wf(b) && b.running == 0 && !IsTerminated(b)
    ensures IsTerminated(Drain(b)) <==> Drain(b).running > 0
    ensures IsTerminated(Drain(b)) ==> Dormant(Drain(b))
  {
  }

  // ---------------------------------------------------------------------------
  // Cancellation and error reporting

  /** `cancel()` is idempotent: a second call changes nothing. */
  lemma CancelIdempotent(b: Barrier)
    ensures CancelBarrier(CancelBarrier(b)) == CancelBarrier(b)
    ensures CancelBarrier(b).cancelled
  {
  }

  /** `start()` after cancellation allocates nothing and subscribes nothing. */
  lemma StartAfterCancel(b: Barrier)
    requires Wf(b)
    ensures Start(CancelBarrier(b)) == CancelBarrier(b)
  {
  }

  /** The upstream subscriptions cancelled by `cancelStates()` are exactly the
      ones the subscribers hold. */
  lemma {:induction false} CancelCallsAreStored(states: seq<ZipState>, id: nat)
    ensures UpCancel(id) in CancelCallsOf(states) <==>
              exists j :: 0 <= j < |states| && states[j].BufferSubscriber? && states[j].subscription == Upstream(id)
  {
    if states != [] {
      CancelCallsAreStored(states[1..], id);
      assert forall j :: 1 <= j < |states| ==> states[j] == states[1..][j - 1];
      if UpCancel(id) in CancelCallsOf(states[1..]) {
        var j :| 0 <= j < |states[1..]| && states[1..][j].BufferSubscriber? && states[1..][j].subscription == Upstream(id);
        assert states[j + 1] == states[1..][j];
      }
    }
  }

  /** Cancelling already-cancelled states cancels nothing more upstream. */
  lemma {:induction false} SecondCancelStatesIsSilent(states: seq<ZipState>)
    ensures CancelCallsOf(CancelledStates(states)) == []
    ensures CancelledStates(CancelledStates(states)) == CancelledStates(states)
  {
    if states != [] {
      SecondCancelStatesIsSilent(states[1..]);
      assert CancelledStates(states)[1..] == CancelledStates(states[1..]);
    }
  }

  /** The first `reportError` latches the error and signals it; a second one
      throws a fatal error and leaves the latched error and the trace as they
      were. */
  lemma ReportErrorTwice(b: Barrier, t1: Failure, t2: Failure)
    requires b.error.None?
    ensures var o1 := ReportError(b, t1);
            var o2 := ReportError(o1.barrier, t2);
            && o1.thrown.None? && o1.barrier.error == Some(t1)
            && o1.barrier.trace == b.trace + [OnError(t1)]
            && o2.thrown == Some(FatalError(t2)) && o2.barrier.error == Some(t1)
            && o2.barrier.trace == o1.barrier.trace
  {
  }

  /** There is no single-`onError` guarantee: `reportError` signals at once,
      and the next drain pass finds the latched error and signals it again. */
  lemma ErrorSignalledTwice(b: Barrier, t: Failure)
    requires Live(b)
    ensures var d := Drain(ReportError(b, t).barrier);
            && d.trace == b.trace + [OnError(t), OnError(t)]
            && ErrorCount(d.trace) == ErrorCount(b.trace) + 2
            && Dormant(d)
  {
  }

  // ---------------------------------------------------------------------------
  // Demand bookkeeping

  /** A barrier waiting on a subscriber: live, no exhausted source, and some
      source without a value. Every drain of it is idle. */
  predicate Waiting(b: Barrier)
  {
    Live(b) && !AnyExhausted(b.states) && !AllAvailable(b.states) && 0 <= b.requested <= LongMax
  }

  /** `request(n)` on a waiting barrier only adds to the demand (and copies
      the available scalar values into their slots). */
  lemma RequestWhileWaiting(b: Barrier, n: int)
    requires Waiting(b) && n >= 0
    ensures Request(b, n) == b.(requested := AddCap(b.requested, n),
                                cache := Slots(Filled(b.states, b.cache.slots, AddCap(b.requested, n) != 0)))
    ensures Waiting(Request(b, n))
  {
  }

  /** Demand is additive: `request(k)` then `request(m)` leaves the same
      barrier as one `request(k + m)`. */
  lemma RequestAdditive(b: Barrier, k: int, m: int)
    requires Waiting(b) && k >= 0 && m >= 0
    ensures Request(Request(b, k), m) == Request(b, k + m)
  {
  }

  /** Demand is additive when every source is an unread scalar too: the
      first `request` with positive total demand zips the one tuple and
      completes, and any later `request` only bumps `running`. So
      `request(k)` then `request(m)` signals and assembles exactly what one
      `request(k + m)` does, and the two barriers differ only in `running`,
      which the extra call raised when the first one had already terminated
      the barrier. */
  lemma RequestAdditiveScalars(b: Barrier, k: int, m: int)
    requires Live(b) && AllUnreadScalars(b.states) && 0 <= b.requested <= LongMax && k >= 0 && m >= 0
    ensures var two := Request(Request(b, k), m);
            var one := Request(b, k + m);
            && two.trace == one.trace && two.assembled == one.assembled
            && two == one.(running := two.running)
            && two.running == one.running + (if AddCap(b.requested, k) != 0 then 1 else 0)
  {
  }

  // ---------------------------------------------------------------------------
  // After termination

  /** Where every terminal path leaves the barrier: terminated, every state
      cancelled, and `running` stuck above 0, so no later `drain()` enters the
      loop. */
  predicate Dormant(b: Barrier)
  {
    && Wf(b) && IsTerminated(b) && b.running > 0
    && forall j :: 0 <= j < |b.states| ==> CancelledForm(b.states[j])
  }

  /** The first `cancel()` on an idle barrier makes it dormant. */
  lemma CancelMakesDormant(b: Barrier)
    requires Wf(b) && !b.cancelled && b.running == 0
    ensures Dormant(CancelBarrier(b))
  {
  }

  /** Calls the barrier can receive once the subscriber holds it. */
  datatype Event =
    | RequestCall(n: int)
    | CancelEvent
    | OfferCall(source: int, id: nat)
    | NextCall(source: int)
    | CompleteCall(source: int)
    | ErrorCall(source: int, cause: Failure)

  /** One call; a thrown exception leaves the barrier as it was. A callback
      addressed to an index that holds no subscriber is not a call that can
      happen and changes nothing. */
  function Step(b: Barrier, e: Event): (r: Barrier)
    requires Wf(b)
    ensures Wf(r)
  {
    match e
    case RequestCall(n) => Request(b, n)
    case CancelEvent => CancelBarrier(b)
    case OfferCall(i, id) => if IsSubscriberAt(b, i) then SubscriberOnSubscribe(b, i, id) else b
    case NextCall(i) => if IsSubscriberAt(b, i) then SubscriberOnNext(b, i) else b
    case CompleteCall(i) => if IsSubscriberAt(b, i) then SubscriberOnComplete(b, i) else b
    case ErrorCall(i, t) => if IsSubscriberAt(b, i) then SubscriberOnError(b, i, t).barrier else b
  }

  function Run(b: Barrier, events: seq<Event>): (r: Barrier)
    requires Wf(b)
    ensures Wf(r)
    decreases |events|
  {
    if events == [] then b else Run(Step(b, events[0]), events[1..])
  }

  /** One call on a dormant barrier: it stays dormant, never signals
      `onComplete` again, signals at most one `onError` (only while no error is
      latched), stores no upstream subscription, and never clears
      `cancelled` or a latched error. */
  lemma DormantStep(b: Barrier, e: Event)
    requires Dormant(b)
    ensures var r := Step(b, e);
            && Dormant(r)
            && (r.trace == b.trace || (b.error.None? && r.error.Some? && r.trace == b.trace + [OnError(r.error.value)]))
            && (b.cancelled ==> r.cancelled)
            && (b.error.Some? ==> r.error == b.error)
            && r.assembled == b.assembled
  {
  }

  /** Over any sequence of calls after a terminal path: the barrier stays
      dormant, no further `onComplete` is signalled, at most one further
      `onError` is (none if an error was already latched), and nothing more
      is assembled. */
  lemma {:induction false} DormantForever(b: Barrier, events: seq<Event>)
    requires Dormant(b)
    ensures var r := Run(b, events);
            && Dormant(r)
            && CompleteCount(r.trace) == CompleteCount(b.trace)
            && ErrorCount(r.trace) <= ErrorCount(b.trace) + (if b.error.None? then 1 else 0)
            && (b.error.Some? ==> r.trace == b.trace)
            && r.assembled == b.assembled
            && (b.cancelled ==> r.cancelled)
    decreases |events|
  {
    if events != [] {
      var b1 := Step(b, events[0]);
      DormantStep(b, events[0]);
      DormantForever(b1, events[1..]);
      if b1.trace != b.trace {
        CountsAppend(b.trace, OnError(b1.error.value));
      }
    }
  }

  // ---------------------------------------------------------------------------
  // Barriers with an asynchronous source

  /** Some source is held by a `BufferSubscriber`. */
  predicate HasSubscriber(b: Barrier)
  {
    exists j :: 0 <= j < |b.states| && IsSubscriberAt(b, j)
  }

  /** A started barrier waiting on a subscriber: no drain in progress, not
      cancelled or terminated, no source exhausted. An error may be latched;
      the next drain will signal it. */
  predicate Idle(b: Barrier)
  {
    && Wf(b) && b.running == 0 && !b.cancelled && !IsTerminated(b)
    && !AnyExhausted(b.states) && HasSubscriber(b)
  }

  /** A drain of an idle barrier assembles nothing and never completes: it
      either returns to idle without a signal, or signals the latched error
      and goes dormant. */
  lemma IdleDrain(b: Barrier)
    requires Idle(b)
    ensures var d := Drain(b);
            && (Idle(d) || Dormant(d))
            && d.assembled == b.assembled
            && (d.trace == b.trace || (b.error.Some? && d.trace == b.trace + [OnError(b.error.value)]))
            && CompleteCount(d.trace) == CompleteCount(b.trace)
  {
    var j :| 0 <= j < |b.states| && IsSubscriberAt(b, j);
    assert 0 <= j < |b.states|;
    assert b.states[j].BufferSubscriber?;
    assert !AllAvailable(b.states) by {
      assert ReadNext(b.states[j]).None?;
    }
    var d := Drain(b);
    if b.error.Some? {
      CountsAppend(b.trace, OnError(b.error.value));
    } else {
      assert IsSubscriberAt(d, j);
    }
  }

  /** One call on an idle barrier assembles nothing and never completes; the
      barrier stays idle or goes dormant. */
  lemma IdleStep(b: Barrier, e: Event)
    requires Idle(b)
    ensures var r := Step(b, e);
            && (Idle(r) || Dormant(r))
            && r.assembled == b.assembled
            && CompleteCount(r.trace) == CompleteCount(b.trace)
  {
    match e
    case RequestCall(n) =>
      var b1 := b.(requested := AddCap(b.requested, n));
      var j :| 0 <= j < |b.states| && IsSubscriberAt(b, j);
      assert IsSubscriberAt(b1, j);
      IdleDrain(b1);
    case CancelEvent =>
      CancelMakesDormant(b);
    case OfferCall(i, id) =>
      if IsSubscriberAt(b, i) {
        var r := SubscriberOnSubscribe(b, i, id);
        assert IsSubscriberAt(r, i);
        assert !AnyExhausted(r.states) by {
          forall k | 0 <= k < |r.states|
            ensures !Exhausted(r.states[k])
          {
            if k != i {
              assert r.states[k] == b.states[k];
            }
          }
        }
      }
    case NextCall(i) =>
      if IsSubscriberAt(b, i) {
        IdleDrain(b);
      }
    case CompleteCall(i) =>
      if IsSubscriberAt(b, i) {
        var b1 := b.(states := b.states[i := MarkDone(b.states[i])]);
        assert IsSubscriberAt(b1, i);
        assert !AnyExhausted(b1.states) by {
          forall k | 0 <= k < |b1.states|
            ensures !Exhausted(b1.states[k])
          {
            if k != i {
              assert b1.states[k] == b.states[k];
            }
          }
        }
        IdleDrain(b1);
      }
    case ErrorCall(i, t) =>
      if IsSubscriberAt(b, i) && b.error.None? {
        CountsAppend(b.trace, OnError(t));
        var j :| 0 <= j < |b.states| && IsSubscriberAt(b, j);
        assert IsSubscriberAt(Step(b, e), j);
      }
  }

  /** Over any sequence of calls, a barrier waiting on a subscriber never
      assembles a tuple and never signals `onComplete`, even after every
      upstream completes; an upstream `onError` is still forwarded. */
  lemma {:induction false} AsyncNeverCompletes(b: Barrier, events: seq<Event>)
    requires Idle(b) || Dormant(b)
    ensures var r := Run(b, events);
            && (Idle(r) || Dormant(r))
            && CompleteCount(r.trace) == CompleteCount(b.trace)
            && r.assembled == b.assembled
    decreases |events|
  {
    if events != [] {
      var b1 := Step(b, events[0]);
      if Idle(b) {
        IdleStep(b, events[0]);
      } else {
        DormantStep(b, events[0]);
        if b1.trace != b.trace {
          CountsAppend(b.trace, OnError(b1.error.value));
        }
      }
      AsyncNeverCompletes(b1, events[1..]);
    }
  }

  /** `reportError` does not look at `cancelled`: an upstream `onError` that
      arrives after the downstream cancelled is still forwarded to it. */
  lemma ErrorAfterCancel(b: Barrier, i: int, t: Failure)
    requires Idle(b) && b.error.None? && IsSubscriberAt(b, i)
    ensures var c := CancelBarrier(b);
            var r := Step(c, ErrorCall(i, t));
            && c.trace == b.trace && Dormant(c)
            && r.cancelled && r.trace == b.trace + [OnError(t)]
  {
    assert IsSubscriberAt(CancelBarrier(b), i);
  }

  // ---------------------------------------------------------------------------
  // Whole scenarios through subscribe

  /** Subscribing to scalars only, then requesting any positive amount:
      the subscriber sees `onSubscribe(barrier)` then `onComplete`, exactly
      one tuple of the values (in source order) is assembled, and no later
      call signals `onComplete` again. */
  lemma ScalarSourcesScenario(values: seq<Value>, n: int, later: seq<Event>)
    requires values != [] && n > 0
    ensures var sources := seq(|values|, j requires 0 <= j < |values| => ScalarSource(values[j]));
            var r := Subscribe(true, Some(sources));
            && r.Done? && r.subscribed.Zipping?
            && var d := Request(r.subscribed.barrier, n);
               && d.trace == [OnSubscribe(BarrierSubscription), OnComplete]
               && d.assembled == [seq(|values|, j requires 0 <= j < |values| => Some(values[j]))]
               && CompleteCount(Run(d, later).trace) == 1
  {
    var sources := seq(|values|, j requires 0 <= j < |values| => ScalarSource(values[j]));
    var b := Subscribe(true, Some(sources)).subscribed.barrier;
    ScalarSubscribe(values);
    var b1 := b.(requested := AddCap(b.requested, n));
    ScalarsZipOnce(b1);
    var d := Request(b, n);
    var t1 := seq(|b1.states|, j requires 0 <= j < |b1.states| => Some(b1.states[j].val));
    var t2 := seq(|values|, j requires 0 <= j < |values| => Some(values[j]));
    assert t1 == t2;
    assert d == Drain(b1);
    assert d.assembled == [t1];
    assert d.assembled == [seq(|values|, j requires 0 <= j < |values| => Some(values[j]))];
    assert Dormant(d);
    assert d.trace == [OnSubscribe(BarrierSubscription)] + [OnComplete];
    assert CompleteCount(d.trace) == 1 by {
      CountsAppend([OnSubscribe(BarrierSubscription)], OnComplete);
      CountsAppend([], OnSubscribe(BarrierSubscription));
    }
    DormantForever(d, later);
  }

  /** Subscribing to scalars only starts a live barrier whose states are
      the unread scalars, in source order. */
  lemma ScalarSubscribe(values: seq<Value>)
    requires values != []
    ensures var sources := seq(|values|, j requires 0 <= j < |values| => ScalarSource(values[j]));
            var r := Subscribe(true, Some(sources));
            && r.Done? && r.subscribed.Zipping?
            && var b := r.subscribed.barrier;
               && Live(b) && b.requested == 0 && AllUnreadScalars(b.states)
               && b.trace == [OnSubscribe(BarrierSubscription)] && b.assembled == []
               && |b.states| == |values|
               && forall j :: 0 <= j < |values| ==> b.states[j].val == values[j]
  {
  }

  /** With any asynchronous source, demand alone never produces anything: the
      stubbed subscriber never yields a value, so after any amount of demand
      the subscriber has seen only `onSubscribe(barrier)`. */
  lemma AsyncSourceScenario(sources: seq<Source>, n: int)
    requires exists j :: 0 <= j < |sources| && sources[j].AsyncSource?
    ensures var r := Subscribe(true, Some(sources));
            && r.Done? && r.subscribed.Zipping?
            && var d := Request(r.subscribed.barrier, n);
               && d.trace == [OnSubscribe(BarrierSubscription)]
               && d.assembled == [] && d.running == 0
               && d.requested == AddCap(0, n)
  {
  }

  /** With any asynchronous source, no sequence of calls after `subscribe`
      (requests, upstream subscriptions, values, completions, errors,
      cancellation) ever assembles a tuple or signals `onComplete`. */
  lemma AsyncSourcesNeverComplete(sources: seq<Source>, events: seq<Event>)
    requires exists j :: 0 <= j < |sources| && sources[j].AsyncSource?
    ensures var r := Subscribe(true, Some(sources));
            && r.Done? && r.subscribed.Zipping?
            && var d := Run(r.subscribed.barrier, events);
               && CompleteCount(d.trace) == 0 && d.assembled == []
  {
    AsyncSubscribeIsIdle(sources);
    AsyncNeverCompletes(Subscribe(true, Some(sources)).subscribed.barrier, events);
  }

  /** Subscribing with an asynchronous source leaves an idle barrier that has
      signalled no `onComplete` and assembled nothing. */
  lemma AsyncSubscribeIsIdle(sources: seq<Source>)
    requires exists j :: 0 <= j < |sources| && sources[j].AsyncSource?
    ensures var r := Subscribe(true, Some(sources));
            && r.Done? && r.subscribed.Zipping?
            && Idle(r.subscribed.barrier)
            && CompleteCount(r.subscribed.barrier.trace) == 0
            && r.subscribed.barrier.assembled == []
  {
    var b := Subscribe(true, Some(sources)).subscribed.barrier;
    var j :| 0 <= j < |sources| && sources[j].AsyncSource?;
    assert IsSubscriberAt(b, j);
    assert !AnyExhausted(b.states) by {
      forall k | 0 <= k < |b.states|
        ensures !Exhausted(b.states[k])
      {
        assert b.states[k] == Build(sources[k]);
      }
    }
    CountsAppend([], OnSubscribe(BarrierSubscription));
  }
}

=== FILE: publisher.dfy ===
/** `AmbPublisher.subscribe` and the callbacks an upstream source makes on the
    `BufferSubscriber` it was subscribed with. */
module Publisher {
  import opened Signals
  import opened ZipStates
  import opened Barriers

  /** What a successful `subscribe` leaves: either just the two signals sent to
      a subscriber when there is nothing to zip, or a started barrier (whose
      own trace holds what the subscriber saw). */
  datatype Subscribed = NothingToZip(trace: seq<Signal>) | Zipping(barrier: Barrier)

  /** The outcome of `subscribe`: the exception raised synchronously, or what
      the subscriber now holds. */
  datatype SubscribeResult = Thrown(exception: Exception) | Done(subscribed: Subscribed)

  /** `subscribe(s)`. `hasSubscriber` is false when `s` is null; `sources` is
      `None` when the source array is null. A null subscriber raises before
      anything else happens; no sources means `onSubscribe(NOOP)` then
      `onComplete`; otherwise the barrier is built and started, and only then
      handed to the subscriber. Upstreams do not call back from inside
      `subscribe(this)` and every source is non-null here, so nothing in
      `start()` raises and the `catch` that turns an exception into
      `onError` is not modelled. */
  function Subscribe(hasSubscriber: bool, sources: Option<seq<Source>>): (r: SubscribeResult)
    ensures !hasSubscriber <==> r == Thrown(NullSubscriber)
    ensures hasSubscriber && (sources.None? || sources.value == []) ==>
              r == Done(NothingToZip([OnSubscribe(NoopSubscription), OnComplete]))
    ensures hasSubscriber && sources.Some? && sources.value != [] ==>
              && r.Done? && r.subscribed.Zipping?
              && var b := r.subscribed.barrier;
                 && Wf(b) && b.sources == sources.value
                 && b.trace == [OnSubscribe(BarrierSubscription)]
                 && !IsTerminated(b) && b.running == 0 && b.requested == 0
                 && b.error.None? && !b.cancelled && b.assembled == []
                 && (forall j :: 0 <= j < |b.states| ==> b.states[j] == Build(b.sources[j]))
                 && b.upstream == SubscribeCalls(b.sources, 0)
  {
    if !hasSubscriber then Thrown(NullSubscriber)
    else if sources.None? || sources.value == [] then
      Done(NothingToZip([OnSubscribe(NoopSubscription), OnComplete]))
    else
      var b := Start(New(sources.value));
      StartIsQuiet(sources.value);
      Done(Zipping(b.(trace := b.trace + [OnSubscribe(BarrierSubscription)])))
  }

  /** The drain inside `start()` sends nothing and consumes nothing: the demand
      is still zero, every scalar is unread, and no subscriber is exhausted. */
  lemma StartIsQuiet(sources: seq<Source>)
    requires sources != []
    ensures var b := Start(New(sources));
            && Wf(b) && b.trace == [] && b.running == 0 && !IsTerminated(b) && b.requested == 0
            && b.error.None? && !b.cancelled && b.assembled == []
            && (forall j :: 0 <= j < |b.states| ==> b.states[j] == Build(sources[j]))
            && b.upstream == SubscribeCalls(sources, 0)
  {
  }

  // ---------------------------------------------------------------------------
  // Callbacks of a BufferSubscriber, addressed by source index

  /** A source index whose state is a `BufferSubscriber`. */
  predicate IsSubscriberAt(b: Barrier, i: int)
  {
    0 <= i < |b.states| && b.states[i].BufferSubscriber?
  }

  /** `onSubscribe(s)` of the subscriber at index `i`, with `id` naming `s`. */
  function SubscriberOnSubscribe(b: Barrier, i: int, id: nat): (r: Barrier)
    requires Wf(b) && IsSubscriberAt(b, i)
    ensures Wf(r) && IsSubscriberAt(r, i)
    ensures r == b.(states := r.states, upstream := r.upstream)
    ensures r.states == b.states[i := r.states[i]]
    ensures var stored := !b.cancelled && b.states[i].subscription == NoSubscription;
            && (stored ==> r.states[i].subscription == Upstream(id)
                           && r.upstream == b.upstream + [UpRequest(id, b.states[i].outstanding)])
            && (!stored ==> r.states == b.states && r.upstream == b.upstream + [UpCancel(id)])
  {
    var (s, call) := ZipStates.OnSubscribe(b.states[i], b.cancelled, id);
    b.(states := b.states[i := s], upstream := b.upstream + [call])
  }

  /** `onNext(x)`: the value is not buffered (the buffering half is a stub);
      the subscriber only drains. */
  function SubscriberOnNext(b: Barrier, i: int): (r: Barrier)
    requires Wf(b) && IsSubscriberAt(b, i)
    ensures Wf(r)
    ensures r.trace == b.trace || IsTerminated(r)
    ensures r.assembled == b.assembled || IsTerminated(r)
    ensures r.requested == b.requested && r.error == b.error && r.cancelled == b.cancelled && r.sources == b.sources
    ensures b.running != 0 ==> r == b.(running := b.running + 1)
  {
    Drain(b)
  }

  /** `onError(t)`: reported to the barrier. */
  function SubscriberOnError(b: Barrier, i: int, t: Failure): (o: Outcome)
    requires Wf(b) && IsSubscriberAt(b, i)
    ensures o.thrown.None? <==> b.error.None?
    ensures o.thrown.None? ==> o.barrier == b.(error := Some(t), trace := b.trace + [OnError(t)])
    ensures o.thrown.Some? ==> o.barrier == b
  {
    ReportError(b, t)
  }

  /** `onComplete()`: set `done` (which nothing reads), then drain. */
  function SubscriberOnComplete(b: Barrier, i: int): (r: Barrier)
    requires Wf(b) && IsSubscriberAt(b, i)
    ensures Wf(r)
    ensures r.trace == b.trace || IsTerminated(r)
    ensures IsSubscriberAt(r, i) && r.states[i].done
    ensures b.running != 0 ==> r.running == b.running + 1 && r.trace == b.trace
  {
    Drain(b.(states := b.states[i := MarkDone(b.states[i])]))
  }
}

=== FILE: signals.dfy ===
/** Vocabulary shared by the zip barrier model: optional values, the signals a
    downstream subscriber receives, the calls made on upstream subscriptions,
    and the exceptions an operation can raise. */
module Signals {

  /** Java's nullable reference: `None` stands for `null`. */
  datatype Option<+T> = None | Some(value: T)

  /** Largest value of a Java `long`; the demand counter saturates here. */
  const LongMax: int := 0x7fff_ffff_ffff_ffff

  /** A payload carried by a source. Only identity matters to the barrier, so a
      plain integer stands in for an arbitrary non-null object. */
  type Value = int

  /** A `Throwable` delivered by an upstream source, identified by a tag. */
  datatype Failure = Failure(tag: nat)

  /** The subscription object handed to the downstream subscriber: the shared
      no-op subscription, or the barrier itself. */
  datatype Handle = NoopSubscription | BarrierSubscription

  /** Signals sent to the downstream subscriber. `onNext` is absent on purpose:
      the barrier never calls it (the call is commented out). */
  datatype Signal = OnSubscribe(handle: Handle) | OnComplete | OnError(cause: Failure)

  /** Calls the barrier makes towards upstream sources. A real upstream
      subscription is identified by a number. */
  datatype UpstreamCall =
    | SubscribeTo(source: nat)
    | UpRequest(subscription: nat, n: int)
    | UpCancel(subscription: nat)

  /** Exceptions raised synchronously instead of being signalled downstream. */
  datatype Exception =
    | NullSubscriber      // the null-subscriber rule, 2.13 of Reactive Streams
    | FatalError(cause: Failure)  // an error reported twice

  /** Number of `OnComplete` signals in a trace. */
  function CompleteCount(t: seq<Signal>): nat
  {
    if t == [] then 0 else (if t[|t| - 1] == OnComplete then 1 else 0) + CompleteCount(t[..|t| - 1])
  }

  /** Number of `OnError` signals in a trace. */
  function ErrorCount(t: seq<Signal>): nat
  {
    if t == [] then 0 else (if t[|t| - 1].OnError? then 1 else 0) + ErrorCount(t[..|t| - 1])
  }

  /** Appending one signal adds exactly its own contribution to both counts. */
  lemma CountsAppend(t: seq<Signal>, s: Signal)
    ensures CompleteCount(t + [s]) == CompleteCount(t) + (if s == OnComplete then 1 else 0)
    ensures ErrorCount(t + [s]) == ErrorCount(t) + (if s.OnError? then 1 else 0)
  {
  }
}

=== FILE: zip_state.dfy ===
/** The per-source states of the barrier: `ScalarState` for a source that
    already holds its single value, and `BufferSubscriber` for an asynchronous
    source. In this version of the code the buffering half of
    `BufferSubscriber` is stubbed: it never yields a value and never reports
    itself terminated. */
module ZipStates {
  import opened Signals

  /** A source handed to the operator: a `Supplier` whose value is already
      available, or any other publisher. */
  datatype Source = ScalarSource(value: Value) | AsyncSource

  /** The `subscription` slot of a `BufferSubscriber`: still `null`, the
      `NOOP_SUBSCRIPTION` sentinel swapped in by `cancel()`, or a real upstream
      subscription. */
  datatype Subscription = NoSubscription | NoopSentinel | Upstream(id: nat)

  datatype ZipState =
    | ScalarState(val: Value, read: bool)
    | BufferSubscriber(subscription: Subscription, done: bool, outstanding: int)

  /** The state built by `start()` for one source. `outstanding` is never
      assigned anywhere, so it keeps Java's default 0. */
  function Build(src: Source): (s: ZipState)
    ensures s.ScalarState? <==> src.ScalarSource?
    ensures s.ScalarState? ==> s.val == src.value && !s.read
    ensures s.BufferSubscriber? ==> s.subscription == NoSubscription && !s.done && s.outstanding == 0
  {
    match src
    case ScalarSource(v) => ScalarState(v, false)
    case AsyncSource => BufferSubscriber(NoSubscription, false, 0)
  }

  /** `readNext()`: an unread scalar yields its value; a read scalar and the
      stubbed subscriber yield nothing. */
  function ReadNext(s: ZipState): (r: Option<Value>)
    ensures r.Some? <==> s.ScalarState? && !s.read
    ensures r.Some? ==> r.value == s.val
    ensures s.BufferSubscriber? ==> r.None?
  {
    match s
    case ScalarState(v, read) => if read then None else Some(v)
    case BufferSubscriber(_, _, _) => None
  }

  /** `isTerminated()`: a scalar is terminated once read; the stubbed
      subscriber never is. A terminated state has nothing left to read. */
  function StateTerminated(s: ZipState): (r: bool)
    ensures r <==> s.ScalarState? && s.read
    ensures r ==> ReadNext(s).None?
    ensures s.BufferSubscriber? ==> !r
  {
    match s
    case ScalarState(_, read) => read
    case BufferSubscriber(_, _, _) => false
  }

  /** `requestMore()`: consumes the scalar's one value; a no-op on the stubbed
      subscriber. Afterwards nothing is left to read. */
  function RequestMore(s: ZipState): (r: ZipState)
    ensures ReadNext(r).None?
    ensures s.ScalarState? ==> r == s.(read := true) && StateTerminated(r)
    ensures s.BufferSubscriber? ==> r == s
  {
    match s
    case ScalarState(v, _) => ScalarState(v, true)
    case BufferSubscriber(_, _, _) => s
  }

  /** `pending()`: one buffered element for an unread scalar, none otherwise;
      it counts exactly the values `readNext()` would still yield. */
  function Pending(s: ZipState): (r: nat)
    ensures r <= 1
    ensures r == 1 <==> ReadNext(s).Some?
    ensures r == 1 <==> s.ScalarState? && !s.read
  {
    match s
    case ScalarState(_, read) => if read then 0 else 1
    case BufferSubscriber(_, _, _) => 0
  }

  /** A source that has nothing left and says so: the drain loop completes the
      downstream when it meets one. */
  predicate Exhausted(s: ZipState)
  {
    ReadNext(s).None? && StateTerminated(s)
  }

  /** What `cancel()` left behind: a scalar is marked read, a subscriber holds
      the no-op sentinel. This is not the code's `isCancelled()`, which for a
      subscriber asks the parent barrier. */
  predicate CancelledForm(s: ZipState)
  {
    match s
    case ScalarState(_, read) => read
    case BufferSubscriber(sub, _, _) => sub == NoopSentinel
  }

  /** The effect of one `cancel()` call on a state, and the upstream
      subscription it cancelled, if any. */
  datatype Cancellation = Cancellation(state: ZipState, cancelled: Option<nat>)

  /** `cancel()`. A scalar is marked read. A subscriber swaps in the no-op
      sentinel and cancels the subscription it held, unless that was the
      sentinel already or nothing at all. */
  function Cancel(s: ZipState): (c: Cancellation)
    ensures CancelledForm(c.state)
    ensures s.ScalarState? ==> c.state == s.(read := true)
    ensures s.BufferSubscriber? ==> c.state == s.(subscription := NoopSentinel)
    ensures c.cancelled.Some? <==> s.BufferSubscriber? && s.subscription.Upstream?
    ensures c.cancelled.Some? ==> c.cancelled.value == s.subscription.id
  {
    match s
    case ScalarState(v, _) => Cancellation(ScalarState(v, true), None)
    case BufferSubscriber(sub, done, outstanding) =>
      if sub == NoopSentinel then Cancellation(s, None)
      else
        Cancellation(BufferSubscriber(NoopSentinel, done, outstanding),
                     if sub.Upstream? then Some(sub.id) else None)
  }

  /** The upstream calls one `cancel()` makes. */
  function CancelCalls(c: Cancellation): seq<UpstreamCall>
  {
    if c.cancelled.Some? then [UpCancel(c.cancelled.value)] else []
  }

  /** `BufferSubscriber.onSubscribe(s)`: a subscription arriving after the
      parent was cancelled, or after one was already stored (or the sentinel
      swapped in), is cancelled; otherwise it is stored and asked for
      `outstanding` elements. */
  function OnSubscribe(s: ZipState, parentCancelled: bool, id: nat): (r: (ZipState, UpstreamCall))
    requires s.BufferSubscriber?
    ensures r.0.BufferSubscriber? && r.0.done == s.done && r.0.outstanding == s.outstanding
    ensures r.1 == UpRequest(id, s.outstanding) <==> !parentCancelled && s.subscription == NoSubscription
    ensures r.1 == UpRequest(id, s.outstanding) ==> r.0.subscription == Upstream(id)
    ensures r.1 != UpRequest(id, s.outstanding) ==> r.1 == UpCancel(id) && r.0 == s
  {
    if parentCancelled then (s, UpCancel(id))
    else if s.subscription != NoSubscription then (s, UpCancel(id))
    else (s.(subscription := Upstream(id)), UpRequest(id, s.outstanding))
  }

  /** `onComplete()` of a subscriber records `done`, which nothing reads. */
  function MarkDone(s: ZipState): (r: ZipState)
    requires s.BufferSubscriber?
    ensures r.BufferSubscriber? && r.done && r.subscription == s.subscription && r.outstanding == s.outstanding
  {
    s.(done := true)
  }

  // ---------------------------------------------------------------------------
  // ScalarState over any sequence of consuming calls

  /** The two calls that consume a scalar. */
  datatype Consuming = RequestMoreCall | CancelCall

  function ApplyConsuming(s: ZipState, calls: seq<Consuming>): ZipState
    decreases |calls|
  {
    if calls == [] then s
    else
      var s' := if calls[0] == RequestMoreCall then RequestMore(s) else Cancel(s).state;
      ApplyConsuming(s', calls[1..])
  }

  /** A scalar yields its value until the first `requestMore` or `cancel`, and
      `null` forever after; `isTerminated` and `pending` follow `read`. Any
      number of further calls is idempotent. */
  lemma {:induction false} ScalarLifecycle(v: Value, calls: seq<Consuming>)
    ensures ApplyConsuming(ScalarState(v, false), calls) == ScalarState(v, |calls| > 0)
    ensures ReadNext(ApplyConsuming(ScalarState(v, false), calls)) == (if calls == [] then Some(v) else None)
    ensures StateTerminated(ApplyConsuming(ScalarState(v, false), calls)) <==> |calls| > 0
    ensures Pending(ApplyConsuming(ScalarState(v, false), calls)) == (if calls == [] then 1 else 0)
  {
    if calls != [] {
      ScalarStaysRead(v, calls[1..]);
    }
  }

  lemma {:induction false} ScalarStaysRead(v: Value, calls: seq<Consuming>)
    ensures ApplyConsuming(ScalarState(v, true), calls) == ScalarState(v, true)
    decreases |calls|
  {
    if calls != [] {
      ScalarStaysRead(v, calls[1..]);
    }
  }

  // ---------------------------------------------------------------------------
  // BufferSubscriber over any sequence of calls

  /** Calls a subscriber receives: a subscription offered by the upstream
      (with the parent's `cancelled` flag at that moment), or `cancel()`. */
  datatype SubscriberCall = Offer(parentCancelled: bool, id: nat) | CancelSubscriber

  /** Runs the calls in order; returns the final state, the upstream calls made
      by `onSubscribe`, and those made by `cancel()`. */
  function RunSubscriber(s: ZipState, calls: seq<SubscriberCall>): (r: (ZipState, seq<UpstreamCall>, seq<UpstreamCall>))
    requires s.BufferSubscriber?
    ensures r.0.BufferSubscriber?
    decreases |calls|
  {
    if calls == [] then (s, [], [])
    else
      match calls[0]
      case Offer(pc, id) =>
        var (s', call) := OnSubscribe(s, pc, id);
        var (f, offers, cancels) := RunSubscriber(s', calls[1..]);
        (f, [call] + offers, cancels)
      case CancelSubscriber =>
        var c := Cancel(s);
        var (f, offers, cancels) := RunSubscriber(c.state, calls[1..]);
        (f, offers, CancelCalls(c) + cancels)
  }

  /** Number of subscriptions `onSubscribe` stored (each one is requested). */
  function StoreCount(calls: seq<UpstreamCall>): nat
  {
    if calls == [] then 0 else (if calls[0].UpRequest? then 1 else 0) + StoreCount(calls[1..])
  }

  /** Over any interleaving of offers and cancels: at most one subscription is
      ever stored, none once something (a subscription or the sentinel) already
      sits in the slot; every offer is answered by exactly one upstream call on
      that same subscription; and `cancel()` cancels an upstream subscription
      at most once in total. */
  lemma {:induction false} SubscriberFirstWins(s: ZipState, calls: seq<SubscriberCall>)
    requires s.BufferSubscriber?
    ensures StoreCount(RunSubscriber(s, calls).1) <= (if s.subscription == NoSubscription then 1 else 0)
    ensures |RunSubscriber(s, calls).1| == |OffersIn(calls)|
    ensures forall k :: 0 <= k < |OffersIn(calls)| ==>
              RunSubscriber(s, calls).1[k] in {UpRequest(OffersIn(calls)[k], s.outstanding), UpCancel(OffersIn(calls)[k])}
    ensures |RunSubscriber(s, calls).2| <= 1
    decreases |calls|
  {
    if calls != [] {
      var (f, offers, cancels) := RunSubscriber(s, calls);
      match calls[0]
      case Offer(pc, id) =>
        var (s', call) := OnSubscribe(s, pc, id);
        SubscriberFirstWins(s', calls[1..]);
        assert OffersIn(calls) == [id] + OffersIn(calls[1..]);
      case CancelSubscriber =>
        var c := Cancel(s);
        SubscriberFirstWins(c.state, calls[1..]);
        if c.cancelled.Some? {
          SubscriberNoCancelAfterSentinel(c.state, calls[1..]);
        }
        assert OffersIn(calls) == OffersIn(calls[1..]);
    }
  }

  /** Once the sentinel is in the slot nothing is stored and `cancel()` cancels
      nothing more. */
  lemma {:induction false} SubscriberNoCancelAfterSentinel(s: ZipState, calls: seq<SubscriberCall>)
    requires s.BufferSubscriber? && s.subscription == NoopSentinel
    ensures RunSubscriber(s, calls).2 == []
    ensures StoreCount(RunSubscriber(s, calls).1) == 0
    ensures RunSubscriber(s, calls).0.subscription == NoopSentinel
    decreases |calls|
  {
    if calls != [] {
      match calls[0]
      case Offer(pc, id) =>
        SubscriberNoCancelAfterSentinel(s, calls[1..]);
      case CancelSubscriber =>
        SubscriberNoCancelAfterSentinel(s, calls[1..]);
    }
  }

  /** Subscription numbers offered by the calls, in order. */
  function OffersIn(calls: seq<SubscriberCall>): seq<nat>
  {
    if calls == [] then []
    else (if calls[0].Offer? then [calls[0].id] else []) + OffersIn(calls[1..])
  }
}
